=== FILE: README.md ===
# Simulcast layer selection, modelled in Dafny

This project models the core of a real-time media relay's simulcast handling.

The **simulcast selector** (`SimulcastMediaFrameListener`) receives video frames from several simulcast layers of one source. Each frame is tagged with a layer id. The selector relays one layer at a time to its listeners. It switches layers only at intra (key) frames. It rewrites timestamps so that the relayed stream keeps one continuous timeline. During a selection round it buffers one candidate intra frame per layer (`iframes`) and every other frame (`pendingFrames`, in arrival order). It then picks a winner, shifts the timeline and replays the winner's buffered frames.

The **media frame** (`MediaFrame`) is the container those frames travel in. It holds a payload buffer with copy-on-write ownership, a codec-configuration blob and a list of packetization hints.

Files:

- `wrappers.dfy`: `Option`.
- `media.dfy` (module `Media`): the media frame. Payload buffers live in an explicit pool, a map from buffer id to buffer. A frame names its buffer by id and carries the `owned` flag. "A fresh buffer" is stated as "an id that was not in the pool before the call". "The shared buffer is never modified" is stated as "every pool entry outside the frame's own owned buffer is unchanged". The frame is a value paired with this pool, rather than a heap object, so that copy-on-write and "nothing else changes" are plain postconditions over values that relate the pool before and after a call.
- `ballot.dfy` (module `Ballot`): the video-frame fields the selector reads, the candidate map and the winner scan. The candidate map is a strictly ascending association list, which is the iteration order of an ordered map.
- `selector.dfy` (module `Selector`): the selector state as an immutable record. Each entry point is a pure step function returning the new state plus the deliveries it made. A delivery carries the rewritten frame and the set of listeners it reached.
- `selector_properties.dfy` (module `SelectorProperties`): lemmas relating the steps to each other and to independent descriptions.

Modelling decisions:

- `Selector.Valid` is `firstTimestamp <= lastTimestamp` plus an ordered candidate map. It holds for `Init` and is preserved by every step. `Select`, `OnMediaFrame` and `Stop` require it. Without it, the unsigned subtraction `lastTimestamp - firstTimestamp` at src/SimulcastMediaFrameListener.cpp:136 could wrap. On reachable states it never does, because the switch at line 139 is always followed by forwarding that same frame at line 146.
- Winner rule as written: `currentDimensions` is never raised (src/SimulcastMediaFrameListener.cpp:57,97-105). So a candidate replaces the running best when its area is non-zero and its length is strictly larger. The winner is therefore the first candidate, in ascending layer order, of greatest length among those with non-zero area and non-zero length. The area is the 32-bit product `width*height`, wrap included.
- The destructor (src/SimulcastMediaFrameListener.cpp:12-15) runs `Select`, so teardown is `Selector.Select`.
- The selector's `VideoFrame` is the record {intra, width, height, length, timestamp, time, clockRate}. The source's clone of an incoming frame is a value copy.

Quirks of the code as written, which the model keeps:

- The lone-intra path clears `pendingFrames` twice and leaves `iframes` untouched (src/SimulcastMediaFrameListener.cpp:78-88). The comment on the second clear reads "Clear pending frames from the rest of the streams", but the call is the same as the first one. `SelectorProperties.StaleCandidateSelectsAtOnce` shows what follows. The round looks closed (`selectionTime == 0`) while the stale candidate stays. So the next intra frame from another layer, captured more than 300 ms after time 0, triggers a selection at once, against that stale candidate.
- The comment at src/SimulcastMediaFrameListener.cpp:98 reads "bigger is better", and the test compares both area and length against the running best. But the running best area `currentDimensions` is never raised, so only length is compared with the running best. Area only has to be non-zero.
- The code has two marks of an idle selector, and they can disagree. Delta frames read `selectionTime == 0` as idle (src/SimulcastMediaFrameListener.cpp:206). Intra frames read an empty `iframes` as idle and open a round on it (src/SimulcastMediaFrameListener.cpp:186). The lone-intra path leaves a candidate in the map with `selectionTime == 0`. An intra frame captured at time 0 opens a round while leaving `selectionTime == 0`, so delta frames read it as idle (`SelectorProperties.ZeroTimeIntraLooksIdle`).
- On a switch, the timeline gap comes from the *previous* layer's candidate, when it has one. It does not come from the winner's. If that candidate's timestamp is not past `lastTimestamp`, the gap is 0, and the wall-clock formula is not used. The source reads that candidate's timestamp with `GetTimeStamp()` (src/SimulcastMediaFrameListener.cpp:125-127), the DWORD accessor of the media frame (include/media.h:149). It reads the winner's and a forwarded frame's timestamp with `GetTimestamp()` (src/SimulcastMediaFrameListener.cpp:139,230), the video frame's own accessor, which is not part of this model. The model takes both to read the same `timestamp` field.
- Output timestamps can step back when the winner is on the layer already relayed. `ForwardFrame` drops only frames older than `firstTimestamp` (src/SimulcastMediaFrameListener.cpp:233-238), and without a switch `firstTimestamp` is not moved to the winner's timestamp (src/SimulcastMediaFrameListener.cpp:112-146). So delta frames the relayed layer sent during the round, older than the winning intra frame, are replayed after it (src/SimulcastMediaFrameListener.cpp:155-159). `SelectorProperties.StayCanStepBack` exhibits a trace from a fresh selector that delivers 200 and then 150. On a switch, the new `firstTimestamp` is the winner's, so older buffered frames are dropped. `SelectorProperties.SwitchNeverStepsBack` proves that there the output never goes below the previous last output timestamp and never goes backwards.
- A lone key frame on the relayed layer itself is not delivered in its own round. When the only candidate is on the layer already relayed, and that layer also sent delta frames during the round, the lone-intra path (src/SimulcastMediaFrameListener.cpp:61-88) replays the deltas and keeps the key frame on the ballot. The next selection then delivers the key frame after the deltas that follow it, so the output steps back. `SelectorProperties.LoneKeyFrameComesLate` exhibits this from a fresh selector. The deltas at 210 and 220 are delivered when the round times out, and a later `Stop` delivers the key frame at 200.

## Model

| member | source | states |
|---|---|---|
| Media.TypeToString | include/media.h:80-94 | Audio, Video and Text are named "Audio", "Video" and "Text"; the name is "Unknown" exactly when the kind is none of those three, `Unknown` included |
| Media.TypeNamesDistinct | include/media.h:80-94 | the three named kinds get pairwise different names |
| Media.NewRtpPacketization | include/media.h:28-45 | a hint keeps pos, size and prefixLen; its prefix is absent iff prefixLen is 0, else it is a copy of the first prefixLen bytes |
| Media.TotalLength | include/media.h:55 | a hint's total length is size + prefixLen, wrapping past 2^32 as a DWORD sum does |
| Media.NewFrame | include/media.h:96-104 | a frame built with a size owns a fresh, empty buffer of that capacity, leaves every other buffer alone and starts with the member defaults: timestamp 0xFFFFFFFF, clock rate 1000, ssrc 0, duration 0, no codec config and no hints |
| Media.SharedFrame | include/media.h:106-114 | a frame built from an existing buffer refers to that very buffer and does not own it, leaves the pool as it was, and starts with the member defaults of include/media.h:266-279: timestamp 0xFFFFFFFF, clock rate 1000, ssrc 0, duration 0, no codec config and no hints |
| Media.Acquire | include/media.h:252-263 | a no-op for an owning frame; otherwise the frame moves to a fresh buffer with the same bytes, owns it, and no existing buffer changes |
| Media.AcquireIdempotent | include/media.h:252-263 | acquiring twice is the same as acquiring once |
| Media.MutableData | include/media.h:166 | the non-const GetData acquires first and yields the bytes the frame had |
| Media.SetLength | include/media.h:167 | acquires first; the length becomes the requested one and the bytes both lengths share are kept |
| Media.Alloc | include/media.h:177-183 | acquires first; contents are kept and the capacity is at least the requested size |
| Media.SetMedia | include/media.h:185-191 | acquires first; the contents become the first size bytes of data |
| Media.AppendMedia | include/media.h:193-203 | acquires first; returns the length before the append, the length grows by size and the contents are old ++ the appended bytes |
| Media.ResetData | include/media.h:169-175 | always an owned, fresh, empty buffer of the given capacity, with the old buffer left as it was and metadata kept |
| Media.Reset | include/media.h:234-242 | an owned empty buffer, no packetization hints and timestamp 0xFFFFFFFF; codec config and other metadata kept |
| Media.ClearRTPPacketizationInfo | include/media.h:124-134 | the hint list is empty afterwards and nothing else changes |
| Media.AddRtpPacket | include/media.h:143-146 | the new hint is appended after the existing ones, which are kept in order |
| Media.AllocateCodecConfig | include/media.h:205-217 | the blob is replaced by one of the requested size; HasCodecConfig iff the size is non-zero |
| Media.SetCodecConfig | include/media.h:219-223 | afterwards the config size is n and the blob is the first n bytes of data, the previous blob gone |
| Media.ClearCodecConfig | include/media.h:225-232 | afterwards there is no codec config and its size is 0 |
| Media.SetCodecConfigReplaces | include/media.h:205-223 | setting a config twice is the same as setting only the second one |
| Media.MutationLeavesOthersAlone | include/media.h:162-203 | after any payload mutator the frame owns its buffer, and no other frame's contents change unless it shares the buffer the mutated frame already owned |
| Ballot.Find | src/SimulcastMediaFrameListener.cpp:119-122 | the lookup finds nothing iff the layer has no candidate, and otherwise returns an entry of that layer |
| Ballot.FindAscending | src/SimulcastMediaFrameListener.cpp:119-122 | in an ordered map, the candidate found for a layer is exactly that layer's entry |
| Ballot.Insert | src/SimulcastMediaFrameListener.cpp:192 | inserting a new layer keeps the map ordered, adds exactly that one layer, and keeps every old entry |
| Ballot.LayerCount | src/SimulcastMediaFrameListener.cpp:198 | the map's size is the number of distinct layers holding a candidate |
| Ballot.PickFindsFirstLongest | src/SimulcastMediaFrameListener.cpp:91-106 | the scan selects something iff some candidate has non-zero area and length, and then it selects the first one of greatest length |
| Ballot.PickIff | src/SimulcastMediaFrameListener.cpp:91-110 | both directions: candidate i is selected iff it is the first eligible one of greatest length; nothing is selected iff none is eligible |
| Ballot.Winner | src/SimulcastMediaFrameListener.cpp:91-110 | the winner is an eligible candidate that no eligible candidate is longer than, and among equal lengths it is the first in ascending layer order (the strict `<` at line 99); with no eligible candidate there is no winner |
| Selector.Init | src/SimulcastMediaFrameListener.cpp:5-10 | the constructor stores its ssrc and layer count; the state satisfies the invariant, with empty buffers, no round and no listeners, relaying layer 0 with every timestamp, offset and time at 0 |
| Selector.ForwardFrame | src/SimulcastMediaFrameListener.cpp:226-253 | a frame older than firstTimestamp is dropped with the state unchanged; otherwise it is delivered once to every listener, with timestamp ts - firstTimestamp + offsetTimestamp, which becomes the last output timestamp, and only lastTimestamp/lastTime move |
| Selector.Replay | src/SimulcastMediaFrameListener.cpp:154-162 | forwarding the buffered frames of one layer delivers exactly that layer's non-late frames in arrival order; the state keeps all but the last-sent fields, which end at the last accepted frame |
| Selector.SwitchTo | src/SimulcastMediaFrameListener.cpp:112-143 | on a switch the new offset is the old last output timestamp plus the gap, the first timestamp becomes the winner's and the winner's layer is relayed |
| Selector.Select | src/SimulcastMediaFrameListener.cpp:51-163 | selection preserves the invariant, keeps the listener set, numLayers and ssrc, and delivers to the current listeners only |
| Selector.Enqueue | src/SimulcastMediaFrameListener.cpp:183-196 | an intra frame opens the round when the map is empty, becomes its layer's candidate if it had none, and is otherwise appended to the pending frames |
| Selector.OnMediaFrame | src/SimulcastMediaFrameListener.cpp:165-224 | non-video frames change nothing; every frame keeps the invariant, the listener set and the configuration |
| Selector.AddMediaListener | src/SimulcastMediaFrameListener.cpp:17-24 | the listener is registered and no other listener or field changes |
| Selector.RemoveMediaListener | src/SimulcastMediaFrameListener.cpp:26-32 | the listener is unregistered and no other listener or field changes |
| Selector.SetNumLayers | src/SimulcastMediaFrameListener.cpp:44-49 | only the expected layer count changes |
| Selector.Stop | src/SimulcastMediaFrameListener.cpp:34-42 | a final selection delivered to the current listeners, after which no listener remains and the invariant holds |
| SelectorProperties.ForwardAdvancesTimeline | src/SimulcastMediaFrameListener.cpp:240-252 | an accepted frame moves the last output timestamp by exactly ts - lastTimestamp |
| SelectorProperties.ReplayKeepsOrder | src/SimulcastMediaFrameListener.cpp:154-159 | if a layer's buffered frames are in timestamp order, its replayed frames come out in timestamp order |
| SelectorProperties.SelectIdleIsNoOp | src/SimulcastMediaFrameListener.cpp:91-110 | with no candidate, Select delivers nothing and changes nothing |
| SelectorProperties.SelectWithoutEligibleIsNoOp | src/SimulcastMediaFrameListener.cpp:91-110 | outside the lone-intra path, with no candidate of non-zero area and length, Select changes nothing |
| SelectorProperties.SelectLoneIntra | src/SimulcastMediaFrameListener.cpp:61-88 | one candidate and pending frames from the relayed layer: exactly those frames are delivered in order (bar late ones); the layer, timeline and candidate map stay; pending emptied, round closed; lastTimestamp and lastTime end at the last delivered frame, or stay when none is delivered |
| SelectorProperties.SelectLastSent | src/SimulcastMediaFrameListener.cpp:51-163 | on every path of Select, as each forward sets them at lines 251-252, when something is delivered the last output timestamp is the last delivery's and lastTime its frame's capture time; when nothing is, lastTimestamp and lastTime are unchanged |
| SelectorProperties.SelectSwitch | src/SimulcastMediaFrameListener.cpp:112-162 | switching to the first longest candidate: it comes out first at the old last output timestamp plus the gap (never below it), then its layer's buffered frames in order; map, pending list and round cleared; the last output timestamp and lastTime end at the last delivery |
| SelectorProperties.SelectStay | src/SimulcastMediaFrameListener.cpp:112-162 | when the winner is on the relayed layer, it and that layer's buffered frames go through the unchanged timeline; map, pending list and round cleared; lastTimestamp and lastTime end at the last delivered frame, or stay when everything was too old |
| SelectorProperties.SwitchNeverStepsBack | src/SimulcastMediaFrameListener.cpp:112-162 | on a switch, if the new layer's buffered frames arrived in timestamp order, every delivery is at or after the last output timestamp before the selection, and the deliveries never go backwards |
| SelectorProperties.LoneKeyFrameComesLate | src/SimulcastMediaFrameListener.cpp:61-88 | from a fresh selector, a lone key frame at 200 on the relayed layer is kept on the ballot while its deltas at 210 and 220 are delivered, and a later Stop delivers it after them |
| SelectorProperties.StayCanStepBack | src/SimulcastMediaFrameListener.cpp:146-159 | without a switch the replay is not filtered against the winner: from a fresh selector, a buffered layer-0 delta at 150 is delivered after the winning layer-0 intra at 200 |
| SelectorProperties.SelectForwardsOnlyTheWinner | src/SimulcastMediaFrameListener.cpp:91-113 | the relayed layer changes only to the layer of the first longest eligible candidate |
| SelectorProperties.IntraFrameSelectsIff | src/SimulcastMediaFrameListener.cpp:183-203 | after buffering an intra frame, selection runs iff every configured layer has a candidate or the frame is more than 300 ms after the round's start |
| SelectorProperties.DeltaFrameInRound | src/SimulcastMediaFrameListener.cpp:205-218 | during a round a delta frame is appended to the pending frames and selection runs iff it is more than 300 ms late |
| SelectorProperties.DeltaFrameWhenIdle | src/SimulcastMediaFrameListener.cpp:220-223 | outside a round a delta frame of the relayed layer is forwarded, and one of any other layer is dropped without trace |
| SelectorProperties.ZeroTimeIntraLooksIdle | src/SimulcastMediaFrameListener.cpp:186-206 | an intra frame captured at time 0 fills the map but leaves selectionTime 0, so the next delta of the relayed layer is forwarded, not buffered |
| SelectorProperties.StaleCandidateSelectsAtOnce | src/SimulcastMediaFrameListener.cpp:78-88 | after the lone-intra path the candidate stays while the round reads as closed, and the next intra of another layer after 300 ms selects at once |
| SelectorProperties.StopTwiceDeliversNothingMore | src/SimulcastMediaFrameListener.cpp:34-42 | Stop delivers what the final selection delivers, and a second Stop reaches no listener |
| SelectorProperties.AddThenRemoveListener | src/SimulcastMediaFrameListener.cpp:17-32 | registering then unregistering a new listener restores the state |
| SelectorProperties.LongerCandidateWins | src/SimulcastMediaFrameListener.cpp:92-106 | with 640x480 in 50000 bytes against 1280x720 in 40000 bytes, the longer (smaller picture) candidate wins |
| SelectorProperties.SwitchOffsetExample | src/SimulcastMediaFrameListener.cpp:113-146 | last 5000, first 4000, offset 100 and a previous-layer candidate at 5300 give offset 1400, and the new intra frame comes out at 1400 |
| SelectorProperties.LateFrameDropped | src/SimulcastMediaFrameListener.cpp:230-238 | a frame at 3999 with first timestamp 4000 is dropped and nothing changes |

## Left out

- Marshaling: `timeService.Sync` (src/SimulcastMediaFrameListener.cpp:21-48) only runs its lambda on the selector's executor. The lambda bodies are modelled as direct state transitions.
- Listeners: modelled as a set of ids. One delivery records the set of listeners it reached. Call order across listeners is not modelled.
- Logging and dumps (`Debug`, `Warning`, `UltraDebug`, `Dump`, `DumpRTPPacketizationInfo`): side effects only.
- Manual memory management (`malloc`/`free`/`new`/`delete`), the destructors' cleanup and the virtual `Clone`: blobs are `seq<bv8>`, and a clone is a value copy. `VideoFrame` is not part of this model beyond the fields the selector reads.
- Buffer internals: the buffer class is not part of this model. Its capacity policy is assumed: capacity grows to the needed size and never shrinks. Bytes added when `SetLength` grows a buffer are taken as zero.
- Selector.ForwardFrame: the rewritten timestamp is not truncated to 32 bits, because `SetTimestamp` takes a DWORD only in the base class and the video frame's accessor is not part of this model.
- Selector.SwitchTo: the uint64 offset, the gap's product with the clock rate, and `selectionTime + 300` are unbounded integers. Their 64-bit wrap-around is not modelled.
- Media.MutableData: the source returns a writable pointer into the acquired buffer, and callers then write through it in place. Those writes are not modelled. Each one amounts to a `Media.Store` on the buffer the frame now owns.
- Media.AllocateCodecConfig: the new blob's contents are left to the caller in the source. The model fills them with zeros.
- Plain field accessors (`GetType`, `Get/SetTimestamp`, `Get/SetSSRC`, `Get/SetDuration`, `Get/SetClockRate`, `GetCodecConfigData`, `GetRtpPacketizationInfo`): these are record field reads and updates of `Media.Frame`, with no separate function. The const payload getters `GetLength`, `GetMaxMediaLength` and `GetData` are pure functions, so they cannot change ownership or contents.
- Initial member values and container type: the class declaration is not part of this model. Every selector member is assumed to start at 0. `iframes` is assumed to be an ordered map, iterated in ascending layer id.
- The timer promised in the TODO at src/SimulcastMediaFrameListener.cpp:188-189 does not exist, and is not modelled.

=== FILE: ballot.dfy ===
/**
  The per-round ballot of candidate intra frames (`iframes`): at most one
  frame per layer, kept as an association list in ascending layer order, which
  is the iteration order of an ordered map; and the scan that picks the layer
  to relay from it.
*/
module Ballot {
  import opened Wrappers
  import Media

  /** The fields of a video frame the selector reads.  `time` is the capture
      time in milliseconds, `clockRate` the timestamp ticks per second. */
  datatype VideoFrame = VideoFrame(
    intra: bool,
    width: nat,
    height: nat,
    length: nat,
    timestamp: nat,
    time: nat,
    clockRate: nat)

  /** A frame tagged with the simulcast layer it arrived on. */
  datatype Entry = Entry(layer: nat, frame: VideoFrame)

  predicate Ascending(cs: seq<Entry>) {
    forall i, j :: 0 <= i < j < |cs| ==> cs[i].layer < cs[j].layer
  }

  /** The layers that have an entry. */
  function Layers(cs: seq<Entry>): set<nat> {
    if cs == [] then {} else {cs[0].layer} + Layers(cs[1..])
  }

  lemma {:induction false} InLayers(cs: seq<Entry>, l: nat)
    ensures l in Layers(cs) <==> exists i :: 0 <= i < |cs| && cs[i].layer == l
  {
    if cs != [] {
      InLayers(cs[1..], l);
      if l in Layers(cs[1..]) {
        var i :| 0 <= i < |cs[1..]| && cs[1..][i].layer == l;
        assert cs[i + 1].layer == l;
      }
      if exists i :: 0 <= i < |cs| && cs[i].layer == l {
        var i :| 0 <= i < |cs| && cs[i].layer == l;
        if i > 0 { assert cs[1..][i - 1].layer == l; }
      }
    }
  }

  /** The candidate of `layer`, if any (the first one, the only one when the
      list is ascending). */
  function Find(cs: seq<Entry>, layer: nat): (r: Option<VideoFrame>)
    ensures r.None? <==> layer !in Layers(cs)
    ensures r.Some? ==> Entry(layer, r.value) in cs
  {
    if cs == [] then None
    else if cs[0].layer == layer then Some(cs[0].frame)
    else
      var r := Find(cs[1..], layer);
      assert r.Some? ==> Entry(layer, r.value) in cs by {
        if r.Some? { assert Entry(layer, r.value) in cs[1..]; }
      }
      r
  }

  /** In an ascending list, the candidate found for a layer is exactly the
      entry of that layer. */
  lemma {:induction false} FindAscending(cs: seq<Entry>, layer: nat, v: VideoFrame)
    requires Ascending(cs)
    ensures Find(cs, layer) == Some(v) <==> Entry(layer, v) in cs
  {
    if cs != [] && cs[0].layer != layer {
      assert Ascending(cs[1..]) by {
        forall i, j | 0 <= i < j < |cs[1..]| ensures cs[1..][i].layer < cs[1..][j].layer {
          assert cs[1..][i] == cs[i + 1] && cs[1..][j] == cs[j + 1];
        }
      }
      FindAscending(cs[1..], layer, v);
      if Entry(layer, v) in cs {
        var i :| 0 <= i < |cs| && cs[i] == Entry(layer, v);
        assert cs[1..][i - 1] == cs[i];
      }
    } else if cs != [] && Entry(layer, v) in cs {
      var i :| 0 <= i < |cs| && cs[i] == Entry(layer, v);
      assert i == 0;
    }
  }

  /** `try_emplace` of a layer that has no candidate yet: the new entry goes
      to its place in layer order, every other entry is kept. */
  function Insert(cs: seq<Entry>, e: Entry): (r: seq<Entry>)
    requires Ascending(cs) && e.layer !in Layers(cs)
    ensures Ascending(r)
    ensures |r| == |cs| + 1
    ensures Layers(r) == Layers(cs) + {e.layer}
    ensures forall x :: x in r <==> x in cs || x == e
  {
    if cs == [] then [e]
    else if e.layer < cs[0].layer then
      assert ([e] + cs)[1..] == cs;
      [e] + cs
    else
      var rest := Insert(cs[1..], e);
      var r := [cs[0]] + rest;
      assert r[1..] == rest;
      InsertAscending(cs, e, rest);
      r
  }

  lemma InsertAscending(cs: seq<Entry>, e: Entry, rest: seq<Entry>)
    requires Ascending(cs) && cs != [] && e.layer !in Layers(cs) && cs[0].layer <= e.layer
    requires Ascending(rest)
    requires forall x :: x in rest ==> x in cs[1..] || x == e
    ensures Ascending([cs[0]] + rest)
  {
    var r := [cs[0]] + rest;
    forall i, j | 0 <= i < j < |r| ensures r[i].layer < r[j].layer {
      if i == 0 {
        assert r[j] == rest[j - 1];
        assert r[j] in rest;
        if r[j] in cs[1..] {
          var k :| 0 <= k < |cs[1..]| && cs[1..][k] == r[j];
          assert cs[k + 1] == r[j];
        } else {
          assert cs[0].layer in Layers(cs);
        }
      } else {
        assert r[i] == rest[i - 1] && r[j] == rest[j - 1];
      }
    }
  }

  /** In an ascending list every entry has its own layer, so the number of
      candidates is the number of layers that sent one. */
  lemma {:induction false} LayerCount(cs: seq<Entry>)
    requires Ascending(cs)
    ensures |Layers(cs)| == |cs|
  {
    if cs != [] {
      assert Ascending(cs[1..]) by {
        forall i, j | 0 <= i < j < |cs[1..]| ensures cs[1..][i].layer < cs[1..][j].layer {
          assert cs[1..][i] == cs[i + 1] && cs[1..][j] == cs[j + 1];
        }
      }
      LayerCount(cs[1..]);
      forall i | 0 <= i < |cs[1..]| ensures cs[1..][i].layer != cs[0].layer {
        assert cs[1..][i] == cs[i + 1];
      }
      InLayers(cs[1..], cs[0].layer);
    }
  }

  // ---------------------------------------------------------------------------
  // Choosing the winner

  /** `GetWidth() * GetHeight()` as a DWORD product. */
  function Area(f: VideoFrame): nat {
    (f.width * f.height) % Media.DWordLimit
  }

  /** The selection loop over the first `k` candidates, in list order.  The
      running best area starts at 0 and is never raised, so a candidate
      displaces the running best when its area is non-zero and its length
      strictly exceeds the running best's length (0 before any).  Returns
      the index of the candidate selected. */
  function Pick(cs: seq<Entry>, k: nat): (r: Option<nat>)
    requires k <= |cs|
    ensures r.Some? ==> r.value < k
  {
    if k == 0 then None
    else
      var prev := Pick(cs, k - 1);
      var currentSize := if prev.Some? then cs[prev.value].frame.length else 0;
      var f := cs[k - 1].frame;
      if 0 < Area(f) && currentSize < f.length then Some(k - 1) else prev
  }

  /** A candidate the loop can select at all. */
  predicate Eligible(f: VideoFrame) {
    0 < Area(f) && 0 < f.length
  }

  /** Candidate `i` is the first, among the first `k`, of the eligible
      candidates of greatest length. */
  ghost predicate FirstLongest(cs: seq<Entry>, k: nat, i: nat)
    requires k <= |cs|
  {
    && i < k
    && Eligible(cs[i].frame)
    && (forall j :: 0 <= j < k && Eligible(cs[j].frame) ==> cs[j].frame.length <= cs[i].frame.length)
    && (forall j :: 0 <= j < i && Eligible(cs[j].frame) ==> cs[j].frame.length < cs[i].frame.length)
  }

  ghost predicate AnyEligible(cs: seq<Entry>, k: nat)
    requires k <= |cs|
  {
    exists j :: 0 <= j < k && Eligible(cs[j].frame)
  }

  lemma {:induction false} PickFindsFirstLongest(cs: seq<Entry>, k: nat)
    requires k <= |cs|
    ensures Pick(cs, k).Some? <==> AnyEligible(cs, k)
    ensures Pick(cs, k).Some? ==> FirstLongest(cs, k, Pick(cs, k).value)
  {
    if k > 0 {
      PickFindsFirstLongest(cs, k - 1);
      var prev := Pick(cs, k - 1);
      var f := cs[k - 1].frame;
      if prev.Some? {
        assert FirstLongest(cs, k - 1, prev.value);
      } else {
        assert forall j :: 0 <= j < k - 1 ==> !Eligible(cs[j].frame);
      }
      if AnyEligible(cs, k) && !AnyEligible(cs, k - 1) {
        assert Eligible(f);
      }
    }
  }

  lemma FirstLongestUnique(cs: seq<Entry>, k: nat, i: nat, j: nat)
    requires k <= |cs| && FirstLongest(cs, k, i) && FirstLongest(cs, k, j)
    ensures i == j
  {
  }

  /** The selection loop selects candidate `i` exactly when `i` is the first
      eligible candidate of greatest length, and selects nothing exactly when
      no candidate is eligible. */
  lemma PickIff(cs: seq<Entry>, i: nat)
    requires i < |cs|
    ensures Pick(cs, |cs|) == Some(i) <==> FirstLongest(cs, |cs|, i)
    ensures Pick(cs, |cs|).None? <==> forall j :: 0 <= j < |cs| ==> !Eligible(cs[j].frame)
  {
    PickFindsFirstLongest(cs, |cs|);
    if FirstLongest(cs, |cs|, i) {
      FirstLongestUnique(cs, |cs|, i, Pick(cs, |cs|).value);
    }
  }

  /** The entry the selection loop settles on, if any. */
  function Winner(cs: seq<Entry>): (r: Option<Entry>)
    ensures r.Some? ==> r.value in cs && Eligible(r.value.frame)
    ensures r.Some? ==> forall c :: c in cs && Eligible(c.frame) ==> c.frame.length <= r.value.frame.length
    ensures r.None? ==> forall c :: c in cs ==> !Eligible(c.frame)
    ensures r.Some? ==> exists i :: 0 <= i < |cs| && cs[i] == r.value && FirstLongest(cs, |cs|, i)
  {
    PickFindsFirstLongest(cs, |cs|);
    match Pick(cs, |cs|)
    case Some(i) => Some(cs[i])
    case None => None
  }
}

=== FILE: media.dfy ===
/**
  The media frame container: frame kind, timing metadata, a payload held in a
  byte buffer with copy-on-write ownership, an out-of-band codec configuration
  blob and an ordered list of packetization hints.

  The payload buffers live in an explicit `Pool` (buffer id -> buffer).  A frame
  names its buffer by id and carries an `owned` flag.  A frame built from a
  shared buffer refers to an id that other frames may also use; before any
  mutation the frame "acquires" the buffer, i.e. copies it into a brand-new id,
  so the buffer it shared is never written.  "Fresh" is stated as "not an id of
  the pool before the call".
*/
module Media {
  import opened Wrappers

  /** The C++ DWORD: an unsigned 32-bit value. */
  const DWordLimit: nat := 0x1_0000_0000
  type DWord = x: int | 0 <= x < 0x1_0000_0000

  /** Frame kinds, with the numeric values of the enumeration; any other
      integer may be stored in a frame's kind and is an unnamed kind. */
  const Audio: int := 0
  const Video: int := 1
  const Text: int := 2
  const Unknown: int := -1

  /** The timestamp a frame starts with and the one `Reset` writes: (DWORD)-1. */
  const NoTimestamp: DWord := 0xFFFF_FFFF

  /** The clock rate a frame starts with, in ticks per second. */
  const DefaultClockRate: DWord := 1000

  /** The printable name of a kind: each named kind its own name, and
      "Unknown" for `Unknown` and every unnamed value. */
  function TypeToString(t: int): (name: string)
    ensures t == Audio ==> name == "Audio"
    ensures t == Video ==> name == "Video"
    ensures t == Text ==> name == "Text"
    ensures t == Unknown ==> name == "Unknown"
    ensures name == "Unknown" <==> t != Audio && t != Video && t != Text
  {
    if t == Audio then "Audio"
    else if t == Video then "Video"
    else if t == Text then "Text"
    else "Unknown"
  }

  /** The three named kinds get three different names. */
  lemma TypeNamesDistinct(a: int, b: int)
    requires a in {Audio, Video, Text} && b in {Audio, Video, Text}
    ensures TypeToString(a) == TypeToString(b) <==> a == b
  {
  }

  // ---------------------------------------------------------------------------
  // Packetization hints

  /** How a frame was split into wire units: an offset, a size and an optional
      prefix to emit before the fragment (absent when `prefixLen` is 0). */
  datatype RtpPacketization = RtpPacketization(pos: DWord, size: DWord, prefix: Option<seq<bv8>>, prefixLen: DWord)

  /** The hint constructor: copies `prefixLen` bytes of `prefix`, or keeps no
      prefix at all when `prefixLen` is 0. */
  function NewRtpPacketization(pos: DWord, size: DWord, prefix: seq<bv8>, prefixLen: DWord): (r: RtpPacketization)
    requires prefixLen <= |prefix|
    ensures r.pos == pos && r.size == size && r.prefixLen == prefixLen
    ensures r.prefix.None? <==> prefixLen == 0
    ensures r.prefix.Some? ==> |r.prefix.value| == prefixLen && r.prefix.value == prefix[..prefixLen]
  {
    if prefixLen != 0 then RtpPacketization(pos, size, Some(prefix[..prefixLen]), prefixLen)
    else RtpPacketization(pos, size, None, 0)
  }

  /** Bytes the fragment occupies on the wire; a DWORD sum, so it wraps. */
  function TotalLength(p: RtpPacketization): (n: DWord)
    ensures p.size + p.prefixLen < DWordLimit ==> n == p.size + p.prefixLen
    ensures p.size + p.prefixLen >= DWordLimit ==> n == p.size + p.prefixLen - DWordLimit
  {
    (p.size + p.prefixLen) % DWordLimit
  }

  // ---------------------------------------------------------------------------
  // Buffers and the buffer pool

  /** A growable byte region: its contents and its allocated capacity. */
  datatype Buffer = Buffer(data: seq<bv8>, capacity: nat)

  predicate BufferValid(b: Buffer) {
    |b.data| <= b.capacity
  }

  /** Every buffer in existence, by id; `next` is an id never handed out yet. */
  datatype Pool = Pool(slots: map<nat, Buffer>, next: nat)

  predicate PoolValid(p: Pool) {
    forall id :: id in p.slots ==> id < p.next && BufferValid(p.slots[id])
  }

  /** Places `b` under an id the pool has never used. */
  function Allocate(p: Pool, b: Buffer): (r: (Pool, nat))
    requires PoolValid(p) && BufferValid(b)
    ensures PoolValid(r.0)
    ensures r.1 !in p.slots && r.0.slots == p.slots[r.1 := b]
  {
    (Pool(p.slots[p.next := b], p.next + 1), p.next)
  }

  /** No buffer of `p` outside `except` is removed or changed in `q`. */
  ghost predicate Untouched(p: Pool, q: Pool, except: set<nat>) {
    forall id :: id in p.slots && id !in except ==> id in q.slots && q.slots[id] == p.slots[id]
  }

  // ---------------------------------------------------------------------------
  // Frames

  datatype Frame = Frame(
    kind: int,
    ts: DWord,
    ssrc: DWord,
    buffer: nat,
    owned: bool,
    duration: DWord,
    clockRate: DWord,
    config: Option<seq<bv8>>,
    rtpInfo: seq<RtpPacketization>)

  /** A frame together with the pool its buffer id refers to. */
  datatype Held = Held(pool: Pool, frame: Frame)

  predicate Live(h: Held) {
    PoolValid(h.pool) && h.frame.buffer in h.pool.slots
  }

  function Payload(h: Held): Buffer
    requires h.frame.buffer in h.pool.slots
  {
    h.pool.slots[h.frame.buffer]
  }

  /** The buffer ids a mutation of `f` may write: its own buffer when it owns
      it, nothing otherwise (it first copies). */
  function Writable(f: Frame): set<nat> {
    if f.owned then {f.buffer} else {}
  }

  /** The contract every payload mutator keeps: afterwards the frame owns a
      live buffer, no buffer it did not own was changed, a shared frame moved
      to a buffer nobody else had, and no metadata changed. */
  ghost predicate CopyOnWrite(h: Held, r: Held) {
    && Live(r)
    && r.frame.owned
    && Untouched(h.pool, r.pool, Writable(h.frame))
    && (!h.frame.owned ==> r.frame.buffer !in h.pool.slots)
    && (h.frame.owned ==> r.frame.buffer == h.frame.buffer)
    && r.frame == h.frame.(buffer := r.frame.buffer, owned := true)
  }

  function InitialFrame(kind: int, buffer: nat, owned: bool): Frame {
    Frame(kind, NoTimestamp, 0, buffer, owned, 0, DefaultClockRate, None, [])
  }

  /** `MediaFrame(type, size)`: a fresh, owned, empty buffer of capacity `size`. */
  function NewFrame(p: Pool, kind: int, size: DWord): (r: Held)
    requires PoolValid(p)
    ensures Live(r) && r.frame.owned && r.frame.buffer !in p.slots
    ensures Untouched(p, r.pool, {})
    ensures Payload(r).data == [] && Payload(r).capacity == size
    ensures r.frame.kind == kind && r.frame.ts == NoTimestamp && r.frame.clockRate == DefaultClockRate
    ensures r.frame.ssrc == 0 && r.frame.duration == 0
    ensures r.frame.config.None? && r.frame.rtpInfo == []
  {
    var (q, id) := Allocate(p, Buffer([], size));
    Held(q, InitialFrame(kind, id, true))
  }

  /** `MediaFrame(type, buffer)`: shares an existing buffer without owning it. */
  function SharedFrame(p: Pool, kind: int, id: nat): (r: Held)
    requires PoolValid(p) && id in p.slots
    ensures Live(r) && !r.frame.owned && r.pool == p && r.frame.buffer == id
    ensures r.frame.kind == kind && r.frame.ts == NoTimestamp && r.frame.clockRate == DefaultClockRate
    ensures r.frame.ssrc == 0 && r.frame.duration == 0
    ensures r.frame.config.None? && r.frame.rtpInfo == []
  {
    Held(p, InitialFrame(kind, id, false))
  }

  /** `AdquireBuffer`: a no-op for an owning frame; otherwise the contents are
      copied into a new buffer that the frame then owns. */
  function Acquire(h: Held): (r: Held)
    requires Live(h)
    ensures CopyOnWrite(h, r)
    ensures h.frame.owned ==> r == h
    ensures Payload(r).data == Payload(h).data
    ensures Untouched(h.pool, r.pool, {})
  {
    if h.frame.owned then h
    else
      var data := Payload(h).data;
      var (q, id) := Allocate(h.pool, Buffer(data, |data|));
      Held(q, h.frame.(buffer := id, owned := true))
  }

  /** Acquiring twice is acquiring once. */
  lemma AcquireIdempotent(h: Held)
    requires Live(h)
    ensures Acquire(Acquire(h)) == Acquire(h)
  {
  }

  /** Replaces the buffer an owning frame holds. */
  function Store(h: Held, b: Buffer): (r: Held)
    requires Live(h) && h.frame.owned && BufferValid(b)
    ensures Live(r) && r.frame == h.frame && Payload(r) == b
    ensures Untouched(h.pool, r.pool, {h.frame.buffer})
  {
    Held(h.pool.(slots := h.pool.slots[h.frame.buffer := b]), h.frame)
  }

  // Const getters: pure functions of the frame, so they change nothing.

  function GetLength(h: Held): nat
    requires h.frame.buffer in h.pool.slots
  {
    |Payload(h).data|
  }

  function GetMaxMediaLength(h: Held): nat
    requires h.frame.buffer in h.pool.slots
  {
    Payload(h).capacity
  }

  function GetData(h: Held): seq<bv8>
    requires h.frame.buffer in h.pool.slots
  {
    Payload(h).data
  }

  /** The non-const `GetData`: acquires, then hands out the (now exclusive)
      contents, which are the contents the frame had. */
  function MutableData(h: Held): (r: (Held, seq<bv8>))
    requires Live(h)
    ensures CopyOnWrite(h, r.0)
    ensures r.1 == GetData(h) && GetData(r.0) == GetData(h)
  {
    var a := Acquire(h);
    (a, Payload(a).data)
  }

  function Zeros(n: nat): (z: seq<bv8>)
    ensures |z| == n
  {
    seq(n, _ => 0)
  }

  /** `SetLength`: acquires, then resizes; the bytes both sizes share are kept. */
  function SetLength(h: Held, length: DWord): (r: Held)
    requires Live(h)
    ensures CopyOnWrite(h, r)
    ensures GetLength(r) == length
    ensures length <= GetLength(h) ==> GetData(r) == GetData(h)[..length]
    ensures length > GetLength(h) ==> GetData(r)[..GetLength(h)] == GetData(h)
  {
    var a := Acquire(h);
    var b := Payload(a);
    var data := if length <= |b.data| then b.data[..length] else b.data + Zeros(length - |b.data|);
    Store(a, Buffer(data, if length <= b.capacity then b.capacity else length))
  }

  /** `Alloc`: acquires, then makes room for at least `size` bytes. */
  function Alloc(h: Held, size: DWord): (r: Held)
    requires Live(h)
    ensures CopyOnWrite(h, r)
    ensures GetData(r) == GetData(h) && GetMaxMediaLength(r) >= size
  {
    var a := Acquire(h);
    var b := Payload(a);
    Store(a, b.(capacity := if size <= b.capacity then b.capacity else size))
  }

  /** `SetMedia`: acquires, then replaces the contents by `size` bytes of `data`. */
  function SetMedia(h: Held, data: seq<bv8>, size: DWord): (r: Held)
    requires Live(h) && size <= |data|
    ensures CopyOnWrite(h, r)
    ensures GetData(r) == data[..size]
  {
    var a := Acquire(h);
    var b := Payload(a);
    Store(a, Buffer(data[..size], if size <= b.capacity then b.capacity else size))
  }

  /** `AppendMedia`: returns the length before the append, at which the
      appended bytes start. */
  function AppendMedia(h: Held, data: seq<bv8>, size: DWord): (r: (Held, nat))
    requires Live(h) && size <= |data|
    ensures CopyOnWrite(h, r.0)
    ensures r.1 == GetLength(h)
    ensures GetLength(r.0) == GetLength(h) + size
    ensures GetData(r.0) == GetData(h) + data[..size]
  {
    var pos := GetLength(h);
    var a := Acquire(h);
    var b := Payload(a);
    var grown := b.data + data[..size];
    (Store(a, Buffer(grown, if |grown| <= b.capacity then b.capacity else |grown|)), pos)
  }

  /** `ResetData`: always a new, owned, empty buffer of capacity `size`; the
      old buffer is left as it was. */
  function ResetData(h: Held, size: DWord): (r: Held)
    requires Live(h)
    ensures Live(r) && r.frame.owned && r.frame.buffer !in h.pool.slots
    ensures Untouched(h.pool, r.pool, {})
    ensures GetData(r) == [] && GetMaxMediaLength(r) == size
    ensures r.frame == h.frame.(buffer := r.frame.buffer, owned := true)
  {
    var (q, id) := Allocate(h.pool, Buffer([], size));
    Held(q, h.frame.(buffer := id, owned := true))
  }

  function ClearRTPPacketizationInfo(f: Frame): (r: Frame)
    ensures !HasRtpPacketizationInfo(r)
    ensures r == f.(rtpInfo := [])
  {
    f.(rtpInfo := [])
  }

  predicate HasRtpPacketizationInfo(f: Frame) {
    f.rtpInfo != []
  }

  /** `Reset`: no hints, an owned empty buffer and the "no timestamp" value;
      the codec configuration and the other metadata stay. */
  function Reset(h: Held): (r: Held)
    requires Live(h)
    ensures Live(r) && r.frame.owned && r.frame.buffer !in h.pool.slots
    ensures Untouched(h.pool, r.pool, {})
    ensures GetData(r) == [] && GetMaxMediaLength(r) == 0
    ensures !HasRtpPacketizationInfo(r.frame) && r.frame.ts == NoTimestamp
    ensures r.frame == h.frame.(buffer := r.frame.buffer, owned := true, rtpInfo := [], ts := NoTimestamp)
  {
    var cleared := Held(h.pool, ClearRTPPacketizationInfo(h.frame));
    var e := ResetData(cleared, 0);
    e.(frame := e.frame.(ts := NoTimestamp))
  }

  function AddRtpPacket(f: Frame, pos: DWord, size: DWord, prefix: seq<bv8>, prefixLen: DWord): (r: Frame)
    requires prefixLen <= |prefix|
    ensures HasRtpPacketizationInfo(r)
    ensures |r.rtpInfo| == |f.rtpInfo| + 1 && r.rtpInfo[..|f.rtpInfo|] == f.rtpInfo
    ensures r.rtpInfo[|f.rtpInfo|] == NewRtpPacketization(pos, size, prefix, prefixLen)
    ensures r == f.(rtpInfo := r.rtpInfo)
  {
    f.(rtpInfo := f.rtpInfo + [NewRtpPacketization(pos, size, prefix, prefixLen)])
  }

  // ---------------------------------------------------------------------------
  // Codec configuration

  predicate HasCodecConfig(f: Frame) {
    f.config.Some? && |f.config.value| != 0
  }

  function GetCodecConfigSize(f: Frame): nat {
    if f.config.Some? then |f.config.value| else 0
  }

  /** `AllocateCodecConfig`: replaces any previous blob by one of `size`
      bytes (whose contents the caller then writes; zero here). */
  function AllocateCodecConfig(f: Frame, size: DWord): (r: Frame)
    ensures r.config.Some? && GetCodecConfigSize(r) == size
    ensures HasCodecConfig(r) <==> size != 0
    ensures r == f.(config := r.config)
  {
    f.(config := Some(Zeros(size)))
  }

  function SetCodecConfig(f: Frame, data: seq<bv8>, size: DWord): (r: Frame)
    requires size <= |data|
    ensures GetCodecConfigSize(r) == size && r.config == Some(data[..size])
    ensures HasCodecConfig(r) <==> size != 0
    ensures r == f.(config := r.config)
  {
    AllocateCodecConfig(f, size).(config := Some(data[..size]))
  }

  function ClearCodecConfig(f: Frame): (r: Frame)
    ensures !HasCodecConfig(r) && GetCodecConfigSize(r) == 0
    ensures r == f.(config := None)
  {
    f.(config := None)
  }

  /** A new configuration replaces the old one entirely. */
  lemma SetCodecConfigReplaces(f: Frame, a: seq<bv8>, n: DWord, b: seq<bv8>, m: DWord)
    requires n <= |a| && m <= |b|
    ensures SetCodecConfig(SetCodecConfig(f, a, n), b, m) == SetCodecConfig(f, b, m)
  {
  }

  // ---------------------------------------------------------------------------
  // The ownership invariant across every mutator

  /** The payload mutators of a frame, as one value. */
  datatype Mutation =
    | GetDataMut
    | SetLengthMut(length: DWord)
    | AllocMut(size: DWord)
    | SetMediaMut(data: seq<bv8>, size: DWord)
    | AppendMediaMut(data: seq<bv8>, size: DWord)
    | ResetDataMut(size: DWord)
    | ResetMut

  predicate Applicable(m: Mutation) {
    match m
    case SetMediaMut(data, size) => size <= |data|
    case AppendMediaMut(data, size) => size <= |data|
    case _ => true
  }

  function Apply(h: Held, m: Mutation): (r: Held)
    requires Live(h) && Applicable(m)
    ensures Live(r)
  {
    match m
    case GetDataMut => MutableData(h).0
    case SetLengthMut(length) => SetLength(h, length)
    case AllocMut(size) => Alloc(h, size)
    case SetMediaMut(data, size) => SetMedia(h, data, size)
    case AppendMediaMut(data, size) => AppendMedia(h, data, size).0
    case ResetDataMut(size) => ResetData(h, size)
    case ResetMut => Reset(h)
  }

  /** Mutating a frame never changes what any other frame sees, unless that
      other frame shares the buffer the mutated frame owns; in particular a
      frame that only shares its buffer never affects the frame it was shared
      from.  Afterwards the mutated frame owns its buffer. */
  lemma MutationLeavesOthersAlone(h: Held, m: Mutation, g: Frame)
    requires Live(h) && Applicable(m) && g.buffer in h.pool.slots
    requires !h.frame.owned || g.buffer != h.frame.buffer
    ensures Apply(h, m).frame.owned
    ensures g.buffer in Apply(h, m).pool.slots
    ensures Payload(Held(Apply(h, m).pool, g)) == Payload(Held(h.pool, g))
  {
    match m
    case GetDataMut =>
    case SetLengthMut(length) =>
    case AllocMut(size) =>
    case SetMediaMut(data, size) =>
    case AppendMediaMut(data, size) =>
    case ResetDataMut(size) =>
    case ResetMut =>
  }
}

=== FILE: selector.dfy ===
/**
  The simulcast layer selector: frames of several simulcast layers of one
  video come in, one layer at a time is relayed to the listeners, switching
  only at intra frames, with the timestamps rewritten so the relayed stream
  reads as one continuous timeline.

  Every entry point is a pure step function from a `State` to a `Step`: the
  new state and the frames delivered, in delivery order.  A delivery names
  the set of listeners it reached, so fan-out to several listeners is one
  `Emission` per forwarded frame.
*/
module Selector {
  import opened Wrappers
  import opened Ballot
  import Media

  /** How long, in milliseconds of capture time, a round waits for the intra
      frames of all layers before selecting with what it has. */
  const FrameWaitingTime: nat := 300

  type ListenerId = nat

  /** One forwarded frame, with its rewritten timestamp, delivered under the
      selector's own `ssrc` to every listener in `to`. */
  datatype Emission = Emission(ssrc: nat, frame: VideoFrame, to: set<ListenerId>)

  datatype State = State(
    ssrc: nat,
    numLayers: nat,
    listeners: set<ListenerId>,
    forwarded: nat,               // the layer being relayed
    iframes: seq<Entry>,          // this round's candidate intra frames, one per layer
    pendingFrames: seq<Entry>,    // everything else buffered this round, in arrival order
    selectionTime: nat,           // capture time that opened the round; 0 when idle
    firstTimestamp: nat,          // input timestamp the current layer started at
    offsetTimestamp: nat,         // output timestamp the current layer started at
    lastTimestamp: nat,           // input timestamp of the last forwarded frame
    lastTime: nat)                // capture time of the last forwarded frame

  datatype Step = Step(state: State, out: seq<Emission>)

  /** What every reachable state satisfies: the last forwarded timestamp is
      not before the current layer's first one (so the unsigned difference
      taken on a switch never wraps), and the ballot is an ordered map. */
  predicate Valid(s: State) {
    s.firstTimestamp <= s.lastTimestamp && Ascending(s.iframes)
  }

  /** The constructor; every other member starts at zero. */
  function Init(ssrc: nat, numLayers: nat): (s: State)
    ensures Valid(s)
    ensures s.ssrc == ssrc && s.numLayers == numLayers
    ensures s.iframes == [] && s.pendingFrames == [] && s.selectionTime == 0 && s.listeners == {}
    ensures s.forwarded == 0 && s.firstTimestamp == 0 && s.offsetTimestamp == 0
    ensures s.lastTimestamp == 0 && s.lastTime == 0
  {
    State(ssrc, numLayers, {}, 0, [], [], 0, 0, 0, 0, 0)
  }

  /** The output timestamp of the last forwarded frame. */
  function LastOutput(s: State): int {
    s.lastTimestamp - s.firstTimestamp + s.offsetTimestamp
  }

  // ---------------------------------------------------------------------------
  // Forwarding

  /** The delivery of an accepted frame, with its timestamp moved onto the
      output timeline. */
  function Emit(s: State, f: VideoFrame): Emission
    requires s.firstTimestamp <= f.timestamp
  {
    Emission(s.ssrc, f.(timestamp := f.timestamp - s.firstTimestamp + s.offsetTimestamp), s.listeners)
  }

  function EmitAll(s: State, fs: seq<VideoFrame>): seq<Emission>
    requires forall i :: 0 <= i < |fs| ==> s.firstTimestamp <= fs[i].timestamp
  {
    seq(|fs|, i requires 0 <= i < |fs| => Emit(s, fs[i]))
  }

  /** The frames of `layer` in `ps` that are not older than `first`, in order. */
  function Accepted(ps: seq<Entry>, layer: nat, first: nat): (r: seq<VideoFrame>)
    ensures forall i :: 0 <= i < |r| ==> first <= r[i].timestamp
    ensures |r| <= |ps|
  {
    if ps == [] then []
    else
      (if ps[0].layer == layer && first <= ps[0].frame.timestamp then [ps[0].frame] else [])
      + Accepted(ps[1..], layer, first)
  }

  /** `ForwardFrame`: a frame older than the current layer's first timestamp
      is dropped and changes nothing; any other is delivered once, stamped
      with what becomes the last output timestamp, and only the last-sent
      bookkeeping moves. */
  function ForwardFrame(s: State, f: VideoFrame): (r: Step)
    ensures r.out == [] <==> f.timestamp < s.firstTimestamp
    ensures r.out == [] ==> r.state == s
    ensures r.out != [] ==>
      && |r.out| == 1
      && r.out[0].frame.timestamp == LastOutput(r.state)
      && r.out[0] == Emission(s.ssrc, f.(timestamp := r.out[0].frame.timestamp), s.listeners)
      && r.state == s.(lastTimestamp := f.timestamp, lastTime := f.time)
      && r.state.firstTimestamp <= r.state.lastTimestamp
  {
    if f.timestamp < s.firstTimestamp then Step(s, [])
    else Step(s.(lastTimestamp := f.timestamp, lastTime := f.time), [Emit(s, f)])
  }

  /** The state after delivering the accepted frames `fs` in order: the
      last-sent bookkeeping is that of the last of them. */
  function Delivered(s: State, fs: seq<VideoFrame>): (r: State)
    ensures r == s.(lastTimestamp := r.lastTimestamp, lastTime := r.lastTime)
    ensures s.firstTimestamp <= s.lastTimestamp && (forall i :: 0 <= i < |fs| ==> s.firstTimestamp <= fs[i].timestamp)
      ==> r.firstTimestamp <= r.lastTimestamp
  {
    if fs == [] then s
    else s.(lastTimestamp := fs[|fs| - 1].timestamp, lastTime := fs[|fs| - 1].time)
  }

  /** The replay loop: forwards, in order, every frame of `ps` from `layer`.
      Its deliveries are those of the accepted frames, all rewritten against
      the same first timestamp and offset, and the state moves exactly as
      delivering them does. */
  function Replay(s: State, ps: seq<Entry>, layer: nat): (r: Step)
    ensures r.out == EmitAll(s, Accepted(ps, layer, s.firstTimestamp))
    ensures r.state == Delivered(s, Accepted(ps, layer, s.firstTimestamp))
    decreases |ps|
  {
    if ps == [] then Step(s, [])
    else
      var a := if ps[0].layer == layer then ForwardFrame(s, ps[0].frame) else Step(s, []);
      var b := Replay(a.state, ps[1..], layer);
      ReplayStep(s, ps, layer, a, b);
      Step(b.state, a.out + b.out)
  }

  /** One turn of the replay loop: forwarding the head then replaying the
      rest amounts to replaying the whole list. */
  lemma ReplayStep(s: State, ps: seq<Entry>, layer: nat, a: Step, b: Step)
    requires ps != []
    requires a == if ps[0].layer == layer then ForwardFrame(s, ps[0].frame) else Step(s, [])
    requires b.out == EmitAll(a.state, Accepted(ps[1..], layer, a.state.firstTimestamp))
    requires b.state == Delivered(a.state, Accepted(ps[1..], layer, a.state.firstTimestamp))
    ensures a.out + b.out == EmitAll(s, Accepted(ps, layer, s.firstTimestamp))
    ensures b.state == Delivered(s, Accepted(ps, layer, s.firstTimestamp))
  {
    var tail := Accepted(ps[1..], layer, s.firstTimestamp);
    if ps[0].layer == layer && s.firstTimestamp <= ps[0].frame.timestamp {
      assert Accepted(ps, layer, s.firstTimestamp) == [ps[0].frame] + tail;
      ReplayTake(s, ps[0].frame, tail, a, b);
    } else {
      assert a == Step(s, []);
      assert Accepted(ps, layer, s.firstTimestamp) == tail;
    }
  }

  /** The turn of the replay loop that delivers `f`. */
  lemma ReplayTake(s: State, f: VideoFrame, tail: seq<VideoFrame>, a: Step, b: Step)
    requires s.firstTimestamp <= f.timestamp
    requires forall i :: 0 <= i < |tail| ==> s.firstTimestamp <= tail[i].timestamp
    requires a == ForwardFrame(s, f)
    requires b.out == EmitAll(a.state, tail)
    requires b.state == Delivered(a.state, tail)
    ensures a.out + b.out == EmitAll(s, [f] + tail)
    ensures b.state == Delivered(s, [f] + tail)
  {
    assert a.out == [Emit(s, f)];
    assert a.state == s.(lastTimestamp := f.timestamp, lastTime := f.time);
    SameTimeline(s, a.state, tail);
    EmitAllCons(s, f, tail);
    if tail != [] {
      assert ([f] + tail)[|tail|] == tail[|tail| - 1];
    }
  }

  /** Deliveries depend on the state only through the timeline: the first
      timestamp, the offset, the ssrc and the listeners. */
  lemma SameTimeline(s: State, t: State, fs: seq<VideoFrame>)
    requires t.ssrc == s.ssrc && t.listeners == s.listeners
    requires t.firstTimestamp == s.firstTimestamp && t.offsetTimestamp == s.offsetTimestamp
    requires forall i :: 0 <= i < |fs| ==> s.firstTimestamp <= fs[i].timestamp
    ensures EmitAll(t, fs) == EmitAll(s, fs)
  {
  }

  lemma EmitAllCons(s: State, f: VideoFrame, fs: seq<VideoFrame>)
    requires s.firstTimestamp <= f.timestamp
    requires forall i :: 0 <= i < |fs| ==> s.firstTimestamp <= fs[i].timestamp
    ensures EmitAll(s, [f] + fs) == [Emit(s, f)] + EmitAll(s, fs)
  {
  }

  // ---------------------------------------------------------------------------
  // Selection

  /** The gap put between the old layer's last output timestamp and the new
      layer's first: the old layer's own clock if it sent an intra frame this
      round (never negative), otherwise elapsed capture time scaled to the new
      frame's clock rate, otherwise nothing. */
  function SwitchDiff(s: State, w: VideoFrame): nat {
    match Find(s.iframes, s.forwarded)
    case Some(p) => if p.timestamp > s.lastTimestamp then p.timestamp - s.lastTimestamp else 0
    case None => if w.time > s.lastTime then (w.time - s.lastTime) * w.clockRate / 1000 else 0
  }

  /** Moves the timeline onto winner `w`'s layer: its intra frame's timestamp
      becomes the first timestamp and will come out at the old last output
      timestamp plus the gap. */
  function SwitchTo(s: State, w: Entry): (r: State)
    requires s.firstTimestamp <= s.lastTimestamp
    ensures r.forwarded == w.layer && r.firstTimestamp == w.frame.timestamp
    ensures r.offsetTimestamp == LastOutput(s) + SwitchDiff(s, w.frame)
    ensures r == s.(forwarded := r.forwarded, firstTimestamp := r.firstTimestamp, offsetTimestamp := r.offsetTimestamp)
  {
    s.(offsetTimestamp := s.offsetTimestamp + (s.lastTimestamp - s.firstTimestamp) + SwitchDiff(s, w.frame),
       firstTimestamp := w.frame.timestamp,
       forwarded := w.layer)
  }

  /** The round saw one intra frame only, while the relayed layer kept
      sending: the lone intra is not taken as a reason to switch. */
  predicate LoneIntra(s: State) {
    |s.iframes| == 1 && s.forwarded in Layers(s.pendingFrames)
  }

  /** `Select`.  The lone-intra path relays the buffered frames of the
      current layer, empties the pending list and ends the round, but keeps
      the ballot.  Otherwise the winner, if any, is relayed (after a switch
      of timeline when it is on another layer), followed by the buffered
      frames of its layer, and the round is over.  With no winner nothing
      changes. */
  function Select(s: State): (r: Step)
    requires Valid(s)
    ensures Valid(r.state)
    ensures r.state.ssrc == s.ssrc && r.state.numLayers == s.numLayers && r.state.listeners == s.listeners
    ensures forall e :: e in r.out ==> e.to == s.listeners && e.ssrc == s.ssrc
  {
    if LoneIntra(s) then
      var rp := Replay(s, s.pendingFrames, s.forwarded);
      Step(rp.state.(selectionTime := 0, pendingFrames := []), rp.out)
    else
      match Winner(s.iframes)
      case None => Step(s, [])
      case Some(w) =>
        var s1 := if w.layer != s.forwarded then SwitchTo(s, w) else s;
        var fw := ForwardFrame(s1, w.frame);
        var s2 := fw.state.(iframes := [], selectionTime := 0);
        assert Valid(s2);
        var rp := Replay(s2, s.pendingFrames, w.layer);
        Step(rp.state.(pendingFrames := []), fw.out + rp.out)
  }

  // ---------------------------------------------------------------------------
  // Ingestion

  /** When an intra frame at capture time `t` finds the round's start time. */
  function RoundStart(s: State, t: nat): nat {
    if s.iframes == [] then t else s.selectionTime
  }

  /** Buffering of an intra frame: it opens the round if the ballot is
      empty, becomes its layer's candidate if the layer has none yet, and is
      appended to the pending frames otherwise. */
  function Enqueue(s: State, layer: nat, f: VideoFrame): (r: State)
    requires Valid(s)
    ensures Valid(r)
    ensures Layers(r.iframes) == Layers(s.iframes) + {layer}
    ensures layer in Layers(s.iframes) ==> r.iframes == s.iframes
    ensures layer !in Layers(s.iframes) ==> forall x :: x in r.iframes <==> x in s.iframes || x == Entry(layer, f)
    ensures r.pendingFrames == s.pendingFrames + (if layer in Layers(s.iframes) then [Entry(layer, f)] else [])
    ensures r.selectionTime == RoundStart(s, f.time)
    ensures r == s.(iframes := r.iframes, pendingFrames := r.pendingFrames, selectionTime := r.selectionTime)
  {
    var s1 := if s.iframes == [] then s.(selectionTime := f.time) else s;
    if Find(s1.iframes, layer).Some? then s1.(pendingFrames := s1.pendingFrames + [Entry(layer, f)])
    else s1.(iframes := Insert(s1.iframes, Entry(layer, f)))
  }

  /** `onMediaFrame`: non-video frames are ignored; intra frames are
      buffered and trigger a selection when every layer has a candidate or
      the round is older than the waiting time; delta frames are buffered
      during a round (which they may time out), and otherwise relayed if
      they are on the forwarded layer and dropped if not. */
  function OnMediaFrame(s: State, kind: int, layer: nat, f: VideoFrame): (r: Step)
    requires Valid(s)
    ensures Valid(r.state)
    ensures kind != Media.Video ==> r == Step(s, [])
    ensures r.state.ssrc == s.ssrc && r.state.numLayers == s.numLayers && r.state.listeners == s.listeners
  {
    if kind != Media.Video then Step(s, [])
    else if f.intra then
      var q := Enqueue(s, layer, f);
      if |q.iframes| == q.numLayers || f.time > q.selectionTime + FrameWaitingTime then Select(q)
      else Step(q, [])
    else if s.selectionTime != 0 then
      var q := s.(pendingFrames := s.pendingFrames + [Entry(layer, f)]);
      if f.time > q.selectionTime + FrameWaitingTime then Select(q)
      else Step(q, [])
    else if layer == s.forwarded then ForwardFrame(s, f)
    else Step(s, [])
  }

  // ---------------------------------------------------------------------------
  // Control operations (each runs as one task on the selector's executor)

  function AddMediaListener(s: State, l: ListenerId): (r: State)
    ensures l in r.listeners && r.listeners - {l} == s.listeners - {l}
    ensures r == s.(listeners := r.listeners)
  {
    s.(listeners := s.listeners + {l})
  }

  function RemoveMediaListener(s: State, l: ListenerId): (r: State)
    ensures l !in r.listeners && r.listeners + {l} == s.listeners + {l}
    ensures r == s.(listeners := r.listeners)
  {
    s.(listeners := s.listeners - {l})
  }

  function SetNumLayers(s: State, n: nat): (r: State)
    ensures r.numLayers == n && r == s.(numLayers := n)
  {
    s.(numLayers := n)
  }

  /** `Stop`: one last selection, delivered to the current listeners, after
      which there are no listeners. */
  function Stop(s: State): (r: Step)
    requires Valid(s)
    ensures Valid(r.state) && r.state.listeners == {}
    ensures forall e :: e in r.out ==> e.to == s.listeners
  {
    var sel := Select(s);
    Step(sel.state.(listeners := {}), sel.out)
  }
}

=== FILE: selector_properties.dfy ===
/**
  Properties of the simulcast selector that relate its step functions to one
  another and to independent descriptions of what they should do.
*/
module SelectorProperties {
  import opened Wrappers
  import opened Ballot
  import opened Selector
  import Media

  // ---------------------------------------------------------------------------
  // Forwarding and continuity

  /** An accepted frame moves the output timeline by exactly as much as its
      input timestamp moved past the last forwarded one. */
  lemma ForwardAdvancesTimeline(s: State, f: VideoFrame)
    requires s.firstTimestamp <= f.timestamp
    ensures var r := ForwardFrame(s, f);
      && r.out != []
      && LastOutput(r.state) == LastOutput(s) + (f.timestamp - s.lastTimestamp)
      && r.out[0].frame.timestamp == f.timestamp - s.firstTimestamp + s.offsetTimestamp
  {
  }

  /** Timestamps that never go backwards. */
  ghost predicate Ordered(fs: seq<VideoFrame>) {
    forall i, j :: 0 <= i < j < |fs| ==> fs[i].timestamp <= fs[j].timestamp
  }

  /** The frames of `layer` in `ps` have timestamps that never go backwards. */
  ghost predicate LayerOrdered(ps: seq<Entry>, layer: nat) {
    forall i, j :: 0 <= i < j < |ps| && ps[i].layer == layer && ps[j].layer == layer ==>
      ps[i].frame.timestamp <= ps[j].frame.timestamp
  }

  /** Within one layer's timeline, frames delivered in input-timestamp order
      come out in output-timestamp order. */
  lemma ReplayKeepsOrder(s: State, ps: seq<Entry>, layer: nat)
    requires LayerOrdered(ps, layer)
    ensures var out := Replay(s, ps, layer).out;
      forall i, j :: 0 <= i < j < |out| ==> out[i].frame.timestamp <= out[j].frame.timestamp
  {
    var acc := Accepted(ps, layer, s.firstTimestamp);
    AcceptedInOrder(ps, layer, s.firstTimestamp);
    assert Ordered(acc);
    var out := Replay(s, ps, layer).out;
    forall i, j | 0 <= i < j < |out| ensures out[i].frame.timestamp <= out[j].frame.timestamp {
      assert out[i] == Emit(s, acc[i]) && out[j] == Emit(s, acc[j]);
      assert acc[i].timestamp <= acc[j].timestamp;
    }
  }

  /** Every accepted frame is a frame of the layer. */
  lemma {:induction false} AcceptedFromLayer(ps: seq<Entry>, layer: nat, first: nat)
    ensures forall v :: v in Accepted(ps, layer, first) ==> Entry(layer, v) in ps
  {
    if ps != [] {
      AcceptedFromLayer(ps[1..], layer, first);
      forall v | v in Accepted(ps[1..], layer, first) ensures Entry(layer, v) in ps {
        assert Entry(layer, v) in ps[1..];
      }
    }
  }

  lemma {:induction false} AcceptedInOrder(ps: seq<Entry>, layer: nat, first: nat)
    requires LayerOrdered(ps, layer)
    ensures Ordered(Accepted(ps, layer, first))
  {
    if ps != [] {
      var tail := ps[1..];
      assert LayerOrdered(tail, layer) by {
        forall i, j | 0 <= i < j < |tail| && tail[i].layer == layer && tail[j].layer == layer
          ensures tail[i].frame.timestamp <= tail[j].frame.timestamp
        {
          assert tail[i] == ps[i + 1] && tail[j] == ps[j + 1];
        }
      }
      AcceptedInOrder(tail, layer, first);
      var rest := Accepted(tail, layer, first);
      if ps[0].layer == layer && first <= ps[0].frame.timestamp {
        AcceptedFromLayer(tail, layer, first);
        var acc := [ps[0].frame] + rest;
        forall j | 0 <= j < |rest| ensures ps[0].frame.timestamp <= rest[j].timestamp {
          assert rest[j] in rest;
          var k :| 0 <= k < |tail| && tail[k] == Entry(layer, rest[j]);
          assert ps[k + 1] == tail[k];
        }
        assert Ordered(acc) by {
          forall i, j | 0 <= i < j < |acc| ensures acc[i].timestamp <= acc[j].timestamp {
            assert acc[j] == rest[j - 1];
            if i > 0 { assert acc[i] == rest[i - 1]; }
          }
        }
        assert Accepted(ps, layer, first) == acc;
      } else {
        assert Accepted(ps, layer, first) == rest;
      }
    }
  }

  // ---------------------------------------------------------------------------
  // Select

  /** The last-sent bookkeeping after a step from `s` with result `r`: when
      something was delivered, the last output timestamp is that of the last
      delivery and the last capture time is its frame's; when nothing was,
      both are as they were. */
  ghost predicate LastSentIsLastDelivery(s: State, r: Step) {
    && (r.out != [] ==>
          && LastOutput(r.state) == r.out[|r.out| - 1].frame.timestamp
          && r.state.lastTime == r.out[|r.out| - 1].frame.time)
    && (r.out == [] ==> r.state.lastTimestamp == s.lastTimestamp && r.state.lastTime == s.lastTime)
  }

  /** Delivering accepted frames leaves the bookkeeping at the last of them. */
  lemma DeliveredLast(s: State, fs: seq<VideoFrame>)
    requires forall i :: 0 <= i < |fs| ==> s.firstTimestamp <= fs[i].timestamp
    ensures LastSentIsLastDelivery(s, Step(Delivered(s, fs), EmitAll(s, fs)))
  {
    if fs != [] {
      assert EmitAll(s, fs)[|fs| - 1] == Emit(s, fs[|fs| - 1]);
    }
  }

  /** The replay loop leaves the bookkeeping at its last delivery. */
  lemma ReplayLast(s: State, ps: seq<Entry>, layer: nat)
    ensures LastSentIsLastDelivery(s, Replay(s, ps, layer))
  {
    DeliveredLast(s, Accepted(ps, layer, s.firstTimestamp));
  }

  /** Whatever path it takes, a selection leaves `lastTimestamp` and
      `lastTime` at the last frame it delivered, and untouched when it
      delivers nothing, as every forward sets them (the next switch reads
      them back). */
  lemma SelectLastSent(s: State)
    requires Valid(s)
    ensures LastSentIsLastDelivery(s, Select(s))
  {
    if LoneIntra(s) {
      ReplayLast(s, s.pendingFrames, s.forwarded);
    } else {
      match Winner(s.iframes)
      case None =>
      case Some(w) =>
        var s1 := if w.layer != s.forwarded then SwitchTo(s, w) else s;
        var fw := ForwardFrame(s1, w.frame);
        var s2 := fw.state.(iframes := [], selectionTime := 0);
        var rp := Replay(s2, s.pendingFrames, w.layer);
        assert Select(s) == Step(rp.state.(pendingFrames := []), fw.out + rp.out);
        ReplayLast(s2, s.pendingFrames, w.layer);
        ForwardThenReplayLast(s, s1, w.frame, s2, rp);
    }
  }

  /** The winner's forward followed by its layer's replay, on a timeline
      `s1` that shares the last-sent bookkeeping of `s`, leaves the
      bookkeeping at the last of their deliveries. */
  lemma ForwardThenReplayLast(s: State, s1: State, f: VideoFrame, s2: State, rp: Step)
    requires s1.lastTimestamp == s.lastTimestamp && s1.lastTime == s.lastTime
    requires s2 == ForwardFrame(s1, f).state.(iframes := [], selectionTime := 0)
    requires LastSentIsLastDelivery(s2, rp)
    requires rp.state.firstTimestamp == s2.firstTimestamp && rp.state.offsetTimestamp == s2.offsetTimestamp
    ensures LastSentIsLastDelivery(s, Step(rp.state.(pendingFrames := []), ForwardFrame(s1, f).out + rp.out))
  {
    var fw := ForwardFrame(s1, f);
    var out := fw.out + rp.out;
    if rp.out != [] {
      assert out[|out| - 1] == rp.out[|rp.out| - 1];
    } else if fw.out != [] {
      assert out[|out| - 1] == fw.out[0];
    }
  }

  /** With an empty ballot, selection does nothing at all. */
  lemma SelectIdleIsNoOp(s: State)
    requires Valid(s) && s.iframes == []
    ensures Select(s) == Step(s, [])
  {
  }

  /** Outside the lone-intra path, a ballot with no candidate of non-zero
      area and non-zero length leaves everything as it was. */
  lemma SelectWithoutEligibleIsNoOp(s: State)
    requires Valid(s) && !LoneIntra(s)
    requires forall c :: c in s.iframes ==> !Eligible(c.frame)
    ensures Select(s) == Step(s, [])
  {
    PickFindsFirstLongest(s.iframes, |s.iframes|);
    assert !AnyEligible(s.iframes, |s.iframes|) by {
      forall j | 0 <= j < |s.iframes| ensures !Eligible(s.iframes[j].frame) {
        assert s.iframes[j] in s.iframes;
      }
    }
  }

  /** The lone-intra path: the frames the relayed layer buffered this round
      are delivered in arrival order (bar those older than its first
      timestamp), the layer and its timeline stay, the pending list is
      emptied and the round closed, but the lone candidate stays on the
      ballot. */
  lemma SelectLoneIntra(s: State)
    requires Valid(s) && LoneIntra(s)
    ensures var r := Select(s);
      && r.out == EmitAll(s, Accepted(s.pendingFrames, s.forwarded, s.firstTimestamp))
      && r.state == s.(pendingFrames := [], selectionTime := 0,
                       lastTimestamp := r.state.lastTimestamp, lastTime := r.state.lastTime)
      && LastSentIsLastDelivery(s, r)
  {
    SelectLastSent(s);
  }

  /** A switch: the winner `i` is the first longest eligible candidate on a
      layer other than the relayed one.  It becomes the relayed layer, its
      intra frame comes out first at the old last output timestamp plus the
      gap (so never below it), then the frames its layer buffered this round,
      in arrival order; the round is over. */
  lemma SelectSwitch(s: State, i: nat)
    requires Valid(s) && !LoneIntra(s)
    requires i < |s.iframes| && FirstLongest(s.iframes, |s.iframes|, i)
    requires s.iframes[i].layer != s.forwarded
    ensures var w := s.iframes[i]; var r := Select(s);
      && r.state.forwarded == w.layer
      && r.state.firstTimestamp == w.frame.timestamp
      && r.state.offsetTimestamp == LastOutput(s) + SwitchDiff(s, w.frame)
      && r.out == [Emission(s.ssrc, w.frame.(timestamp := r.state.offsetTimestamp), s.listeners)]
                  + EmitAll(r.state, Accepted(s.pendingFrames, w.layer, w.frame.timestamp))
      && r.out[0].frame.timestamp >= LastOutput(s)
      && r.state.iframes == [] && r.state.pendingFrames == [] && r.state.selectionTime == 0
      && LastSentIsLastDelivery(s, r)
  {
    SelectLastSent(s);
    PickIff(s.iframes, i);
    var w := s.iframes[i];
    var s1 := SwitchTo(s, w);
    var fw := ForwardFrame(s1, w.frame);
    var s2 := fw.state.(iframes := [], selectionTime := 0);
    var rp := Replay(s2, s.pendingFrames, w.layer);
    assert Winner(s.iframes) == Some(w);
    assert Select(s) == Step(rp.state.(pendingFrames := []), fw.out + rp.out);
    assert fw.out == [Emission(s.ssrc, w.frame.(timestamp := s1.offsetTimestamp), s.listeners)];
    SameTimeline(s2, rp.state.(pendingFrames := []), Accepted(s.pendingFrames, w.layer, w.frame.timestamp));
  }

  /** No switch: the winner is on the relayed layer, so it and that layer's
      buffered frames go through the current timeline unchanged (each one
      dropped if older than the first timestamp); the round is over. */
  lemma SelectStay(s: State, i: nat)
    requires Valid(s) && !LoneIntra(s)
    requires i < |s.iframes| && FirstLongest(s.iframes, |s.iframes|, i)
    requires s.iframes[i].layer == s.forwarded
    ensures var w := s.iframes[i]; var r := Select(s);
      && r.out == EmitAll(s, Accepted([w] + s.pendingFrames, w.layer, s.firstTimestamp))
      && r.state == s.(iframes := [], pendingFrames := [], selectionTime := 0,
                       lastTimestamp := r.state.lastTimestamp, lastTime := r.state.lastTime)
      && LastSentIsLastDelivery(s, r)
  {
    StayDelivery(s, i);
    SelectLastSent(s);
  }

  /** The deliveries and the state of `SelectStay`. */
  lemma StayDelivery(s: State, i: nat)
    requires Valid(s) && !LoneIntra(s)
    requires i < |s.iframes| && FirstLongest(s.iframes, |s.iframes|, i)
    requires s.iframes[i].layer == s.forwarded
    ensures var w := s.iframes[i]; var r := Select(s);
      && r.out == EmitAll(s, Accepted([w] + s.pendingFrames, w.layer, s.firstTimestamp))
      && r.state == s.(iframes := [], pendingFrames := [], selectionTime := 0,
                       lastTimestamp := r.state.lastTimestamp, lastTime := r.state.lastTime)
  {
    PickIff(s.iframes, i);
    var w := s.iframes[i];
    assert Winner(s.iframes) == Some(w);
    var fw := ForwardFrame(s, w.frame);
    var s2 := fw.state.(iframes := [], selectionTime := 0);
    var rp := Replay(s2, s.pendingFrames, w.layer);
    assert Select(s) == Step(rp.state.(pendingFrames := []), fw.out + rp.out);
    var t := s.(iframes := [], selectionTime := 0);
    var ps := [w] + s.pendingFrames;
    assert ps[0] == w && ps[1..] == s.pendingFrames;
    var ft := ForwardFrame(t, w.frame);
    assert ft.state == s2 && ft.out == fw.out;
    ReplayStep(t, ps, w.layer, ft, rp);
    SameTimeline(s, t, Accepted(ps, w.layer, s.firstTimestamp));
  }

  /** On a switch nothing goes backwards: when the new layer's buffered
      frames arrived in timestamp order, every delivery is at or after the
      last output timestamp before the selection, and each one is at or
      after the one before it.  Buffered frames older than the winner fall
      below the new first timestamp and are dropped. */
  lemma SwitchNeverStepsBack(s: State, i: nat)
    requires Valid(s) && !LoneIntra(s)
    requires i < |s.iframes| && FirstLongest(s.iframes, |s.iframes|, i)
    requires s.iframes[i].layer != s.forwarded
    requires LayerOrdered(s.pendingFrames, s.iframes[i].layer)
    ensures var out := Select(s).out;
      && (forall k :: 0 <= k < |out| ==> LastOutput(s) <= out[k].frame.timestamp)
      && (forall j, k :: 0 <= j < k < |out| ==> out[j].frame.timestamp <= out[k].frame.timestamp)
  {
    var w := s.iframes[i];
    SelectSwitch(s, i);
    var t := Select(s).state;
    AcceptedInOrder(s.pendingFrames, w.layer, w.frame.timestamp);
    HeadThenReplayInOrder(t, Emission(s.ssrc, w.frame.(timestamp := t.offsetTimestamp), s.listeners),
      Accepted(s.pendingFrames, w.layer, w.frame.timestamp));
  }

  /** A delivery at the timeline's own offset followed by ordered frames
      rewritten on that timeline is ordered and never below the offset. */
  lemma HeadThenReplayInOrder(t: State, head: Emission, fs: seq<VideoFrame>)
    requires head.frame.timestamp == t.offsetTimestamp
    requires forall k :: 0 <= k < |fs| ==> t.firstTimestamp <= fs[k].timestamp
    requires Ordered(fs)
    ensures var out := [head] + EmitAll(t, fs);
      && (forall k :: 0 <= k < |out| ==> t.offsetTimestamp <= out[k].frame.timestamp)
      && (forall j, k :: 0 <= j < k < |out| ==> out[j].frame.timestamp <= out[k].frame.timestamp)
  {
    var out := [head] + EmitAll(t, fs);
    forall k | 1 <= k < |out| ensures out[k] == Emit(t, fs[k - 1]) {
    }
    forall j, k | 0 <= j < k < |out| ensures out[j].frame.timestamp <= out[k].frame.timestamp {
      if j > 0 {
        assert fs[j - 1].timestamp <= fs[k - 1].timestamp;
      }
    }
  }

  /** Without a switch the replay is not filtered against the winner: a
      delta frame the relayed layer sent during the round, older than the
      intra frame that wins on that same layer, is delivered after it, and
      the output timeline steps back.  From a fresh selector on three layers
      relaying layer 0: a layer-2 intra opens the round, a layer-0 delta with
      timestamp 150 is buffered, a longer layer-0 intra with timestamp 200
      becomes a candidate, and the selection delivers 200 then 150. */
  lemma StayCanStepBack(s0: State, lo: VideoFrame, d: VideoFrame, hi: VideoFrame)
    requires s0 == Init(9, 3)
    requires lo == VideoFrame(true, 640, 480, 10000, 9000, 1000, 90000)
    requires d == VideoFrame(false, 1280, 720, 3000, 150, 1010, 90000)
    requires hi == VideoFrame(true, 1280, 720, 50000, 200, 1020, 90000)
    ensures var s1 := OnMediaFrame(s0, Media.Video, 2, lo).state;
      var s2 := OnMediaFrame(s1, Media.Video, 0, d).state;
      var s3 := OnMediaFrame(s2, Media.Video, 0, hi).state;
      var out := Select(s3).out;
      && |out| == 2
      && out[0].frame.timestamp == 200 && out[1].frame.timestamp == 150
  {
    StepBackTrace(s0, lo, d, hi);
    StepBackSelect(State(9, 3, {}, 0, [Entry(0, hi), Entry(2, lo)], [Entry(0, d)], 1000, 0, 0, 0, 0), lo, d, hi);
  }

  /** The three frames of `StayCanStepBack` are buffered without selecting. */
  lemma StepBackTrace(s0: State, lo: VideoFrame, d: VideoFrame, hi: VideoFrame)
    requires s0 == Init(9, 3)
    requires lo == VideoFrame(true, 640, 480, 10000, 9000, 1000, 90000)
    requires d == VideoFrame(false, 1280, 720, 3000, 150, 1010, 90000)
    requires hi == VideoFrame(true, 1280, 720, 50000, 200, 1020, 90000)
    ensures var s1 := OnMediaFrame(s0, Media.Video, 2, lo).state;
      var s2 := OnMediaFrame(s1, Media.Video, 0, d).state;
      OnMediaFrame(s2, Media.Video, 0, hi).state
        == State(9, 3, {}, 0, [Entry(0, hi), Entry(2, lo)], [Entry(0, d)], 1000, 0, 0, 0, 0)
  {
    var s1 := State(9, 3, {}, 0, [Entry(2, lo)], [], 1000, 0, 0, 0, 0);
    StepBackOpen(s0, lo, s1);
    var s2 := s1.(pendingFrames := [Entry(0, d)]);
    DeltaFrameInRound(s1, 0, d);
    StepBackCandidate(s2, lo, d, hi);
  }

  /** The layer-2 intra frame of `StayCanStepBack` opens the round. */
  lemma StepBackOpen(s0: State, lo: VideoFrame, s1: State)
    requires s0 == Init(9, 3)
    requires lo == VideoFrame(true, 640, 480, 10000, 9000, 1000, 90000)
    requires s1 == State(9, 3, {}, 0, [Entry(2, lo)], [], 1000, 0, 0, 0, 0)
    ensures OnMediaFrame(s0, Media.Video, 2, lo) == Step(s1, [])
  {
    IntraFrameSelectsIff(s0, 2, lo);
    assert Enqueue(s0, 2, lo) == s1;
  }

  /** The layer-0 intra frame of `StayCanStepBack` joins the ballot. */
  lemma StepBackCandidate(s2: State, lo: VideoFrame, d: VideoFrame, hi: VideoFrame)
    requires lo == VideoFrame(true, 640, 480, 10000, 9000, 1000, 90000)
    requires hi == VideoFrame(true, 1280, 720, 50000, 200, 1020, 90000)
    requires s2 == State(9, 3, {}, 0, [Entry(2, lo)], [Entry(0, d)], 1000, 0, 0, 0, 0)
    ensures OnMediaFrame(s2, Media.Video, 0, hi)
      == Step(State(9, 3, {}, 0, [Entry(0, hi), Entry(2, lo)], [Entry(0, d)], 1000, 0, 0, 0, 0), [])
  {
    IntraFrameSelectsIff(s2, 0, hi);
    assert Enqueue(s2, 0, hi) == s2.(iframes := [Entry(0, hi), Entry(2, lo)]);
    assert Layers(s2.iframes) + {0} == {0, 2};
  }

  /** The selection that ends the round of `StayCanStepBack`. */
  lemma StepBackSelect(s3: State, lo: VideoFrame, d: VideoFrame, hi: VideoFrame)
    requires lo == VideoFrame(true, 640, 480, 10000, 9000, 1000, 90000)
    requires d == VideoFrame(false, 1280, 720, 3000, 150, 1010, 90000)
    requires hi == VideoFrame(true, 1280, 720, 50000, 200, 1020, 90000)
    requires s3 == State(9, 3, {}, 0, [Entry(0, hi), Entry(2, lo)], [Entry(0, d)], 1000, 0, 0, 0, 0)
    ensures var out := Select(s3).out;
      && |out| == 2
      && out[0].frame.timestamp == 200 && out[1].frame.timestamp == 150
  {
    assert Valid(s3);
    assert !LoneIntra(s3);
    assert FirstLongest(s3.iframes, 2, 0) by {
      assert Area(hi) == 921600 && Area(lo) == 307200;
    }
    StayDelivery(s3, 0);
    var ps := [Entry(0, hi), Entry(0, d)];
    assert [s3.iframes[0]] + s3.pendingFrames == ps;
    assert Accepted(ps, 0, 0) == [hi, d] by {
      assert ps[1..] == [Entry(0, d)];
      assert Accepted(ps[1..], 0, 0) == [d] by {
        assert ps[1..][1..] == [];
      }
    }
    var out := Select(s3).out;
    assert out == EmitAll(s3, [hi, d]);
    assert out[0] == Emit(s3, hi) && out[1] == Emit(s3, d);
  }

  /** A lone key frame on the relayed layer itself is never delivered in its
      round: the lone-intra path replays the deltas that follow it and keeps
      it on the ballot, and the next selection delivers it after them.  From
      a fresh selector on two layers, with listener 1, relaying layer 0:
      layer 0 sends an intra frame at 200 (time 20) and deltas at 210 (time
      30) and 220 (time 400); the last one times the round out and 210 and
      220 are delivered; `Stop` then delivers 200. */
  lemma LoneKeyFrameComesLate(s0: State, k: VideoFrame, d1: VideoFrame, d2: VideoFrame)
    requires s0 == AddMediaListener(Init(9, 2), 1)
    requires k == VideoFrame(true, 640, 480, 5000, 200, 20, 90000)
    requires d1 == VideoFrame(false, 640, 480, 800, 210, 30, 90000)
    requires d2 == VideoFrame(false, 640, 480, 800, 220, 400, 90000)
    ensures var s1 := OnMediaFrame(s0, Media.Video, 0, k).state;
      var s2 := OnMediaFrame(s1, Media.Video, 0, d1).state;
      var r3 := OnMediaFrame(s2, Media.Video, 0, d2);
      && |r3.out| == 2 && r3.out[0].frame.timestamp == 210 && r3.out[1].frame.timestamp == 220
      && r3.state.iframes == [Entry(0, k)] && r3.state.selectionTime == 0
      && Stop(r3.state).out == [Emission(9, k, {1})]
  {
    LoneKeyTrace(s0, k, d1);
    var s2 := State(9, 2, {1}, 0, [Entry(0, k)], [Entry(0, d1)], 20, 0, 0, 0, 0);
    LoneKeyRound(s2, k, d1, d2);
  }

  /** The third frame of `LoneKeyFrameComesLate` times the round out: the
      two deltas come out, the key frame stays on the ballot, and `Stop`
      then delivers it. */
  lemma LoneKeyRound(s2: State, k: VideoFrame, d1: VideoFrame, d2: VideoFrame)
    requires k == VideoFrame(true, 640, 480, 5000, 200, 20, 90000)
    requires d1 == VideoFrame(false, 640, 480, 800, 210, 30, 90000)
    requires d2 == VideoFrame(false, 640, 480, 800, 220, 400, 90000)
    requires s2 == State(9, 2, {1}, 0, [Entry(0, k)], [Entry(0, d1)], 20, 0, 0, 0, 0)
    ensures var r3 := OnMediaFrame(s2, Media.Video, 0, d2);
      && r3.out == [Emission(9, d1, {1}), Emission(9, d2, {1})]
      && r3.state.iframes == [Entry(0, k)] && r3.state.selectionTime == 0
      && Stop(r3.state).out == [Emission(9, k, {1})]
  {
    var q := s2.(pendingFrames := [Entry(0, d1), Entry(0, d2)]);
    LoneKeyTimeout(s2, d2);
    LoneKeySelect(q, k, d1, d2);
    LoneKeyStop(Select(q).state, k);
  }

  /** The first two frames of `LoneKeyFrameComesLate` open a round and are
      buffered. */
  lemma LoneKeyTrace(s0: State, k: VideoFrame, d1: VideoFrame)
    requires s0 == AddMediaListener(Init(9, 2), 1)
    requires k == VideoFrame(true, 640, 480, 5000, 200, 20, 90000)
    requires d1 == VideoFrame(false, 640, 480, 800, 210, 30, 90000)
    ensures var s1 := OnMediaFrame(s0, Media.Video, 0, k).state;
      OnMediaFrame(s1, Media.Video, 0, d1).state == State(9, 2, {1}, 0, [Entry(0, k)], [Entry(0, d1)], 20, 0, 0, 0, 0)
  {
    assert s0 == State(9, 2, {1}, 0, [], [], 0, 0, 0, 0, 0);
    assert Enqueue(s0, 0, k) == s0.(iframes := [Entry(0, k)], selectionTime := 20);
    assert Layers([Entry(0, k)]) == {0};
  }

  /** A delta frame 380 ms after the round opened at time 20 is buffered
      and times the round out. */
  lemma LoneKeyTimeout(s: State, d: VideoFrame)
    requires Valid(s) && s.selectionTime == 20 && !d.intra && d.time == 400
    ensures OnMediaFrame(s, Media.Video, 0, d) == Select(s.(pendingFrames := s.pendingFrames + [Entry(0, d)]))
  {
  }

  /** The selection that times out the round of `LoneKeyFrameComesLate`
      takes the lone-intra path: the two deltas come out, the key frame
      stays on the ballot. */
  lemma LoneKeySelect(s: State, k: VideoFrame, d1: VideoFrame, d2: VideoFrame)
    requires k.intra && 0 < k.length
    requires s == State(9, 2, {1}, 0, [Entry(0, k)], [Entry(0, d1), Entry(0, d2)], 20, 0, 0, 0, 0)
    ensures var r := Select(s);
      && r.out == [Emission(9, d1, {1}), Emission(9, d2, {1})]
      && r.state == s.(pendingFrames := [], selectionTime := 0, lastTimestamp := r.state.lastTimestamp, lastTime := r.state.lastTime)
  {
    var ps := s.pendingFrames;
    assert 0 in Layers(ps);
    assert Accepted(ps, 0, 0) == [d1, d2] by {
      assert ps[1..] == [Entry(0, d2)];
      assert Accepted(ps[1..], 0, 0) == [d2] by {
        assert ps[1..][1..] == [];
      }
    }
    SelectLoneIntra(s);
    var out := Select(s).out;
    assert out == EmitAll(s, [d1, d2]);
    assert out[0] == Emit(s, d1) && out[1] == Emit(s, d2);
  }

  /** `Stop` after the lone-intra path delivers the stale key frame,
      whatever the last forwarded frame was. */
  lemma LoneKeyStop(s: State, k: VideoFrame)
    requires k == VideoFrame(true, 640, 480, 5000, 200, 20, 90000)
    requires s.(lastTimestamp := 0, lastTime := 0) == State(9, 2, {1}, 0, [Entry(0, k)], [], 0, 0, 0, 0, 0)
    ensures Stop(s).out == [Emission(9, k, {1})]
  {
    assert Layers(s.pendingFrames) == {};
    assert FirstLongest(s.iframes, 1, 0) by {
      assert Area(k) == 307200;
    }
    StayDelivery(s, 0);
    assert Accepted([Entry(0, k)], 0, 0) == [k];
  }

  /** The relayed layer only ever changes to the layer of the first longest
      eligible candidate. */
  lemma SelectForwardsOnlyTheWinner(s: State)
    requires Valid(s)
    ensures var r := Select(s);
      r.state.forwarded == s.forwarded ||
      exists i :: 0 <= i < |s.iframes| && FirstLongest(s.iframes, |s.iframes|, i) && r.state.forwarded == s.iframes[i].layer
  {
    if !LoneIntra(s) {
      PickFindsFirstLongest(s.iframes, |s.iframes|);
      match Pick(s.iframes, |s.iframes|)
      case None =>
      case Some(i) =>
        if s.iframes[i].layer != s.forwarded {
          SelectSwitch(s, i);
        }
    }
  }

  // ---------------------------------------------------------------------------
  // Ingestion

  /** An intra frame is buffered, and selection runs exactly when every
      configured layer then has a candidate, or the frame is more than the
      waiting time after the round's start. */
  lemma IntraFrameSelectsIff(s: State, layer: nat, f: VideoFrame)
    requires Valid(s) && f.intra
    ensures var q := Enqueue(s, layer, f);
      var due := |Layers(s.iframes) + {layer}| == s.numLayers || f.time > RoundStart(s, f.time) + FrameWaitingTime;
      OnMediaFrame(s, Media.Video, layer, f) == if due then Select(q) else Step(q, [])
  {
    LayerCount(Enqueue(s, layer, f).iframes);
  }

  /** During a round a delta frame is appended to the pending frames, and
      selection runs exactly when it is more than the waiting time after the
      round's start. */
  lemma DeltaFrameInRound(s: State, layer: nat, f: VideoFrame)
    requires Valid(s) && !f.intra && s.selectionTime != 0
    ensures var q := s.(pendingFrames := s.pendingFrames + [Entry(layer, f)]);
      OnMediaFrame(s, Media.Video, layer, f) == if f.time > s.selectionTime + FrameWaitingTime then Select(q) else Step(q, [])
  {
  }

  /** Outside a round a delta frame of the relayed layer is delivered at once
      (unless it is older than the first timestamp), and a delta frame of any
      other layer is dropped without a trace. */
  lemma DeltaFrameWhenIdle(s: State, layer: nat, f: VideoFrame)
    requires Valid(s) && !f.intra && s.selectionTime == 0
    ensures var r := OnMediaFrame(s, Media.Video, layer, f);
      && (layer != s.forwarded ==> r == Step(s, []))
      && (layer == s.forwarded && s.firstTimestamp <= f.timestamp ==>
            r.out == [Emit(s, f)] && r.state == s.(lastTimestamp := f.timestamp, lastTime := f.time))
      && (layer == s.forwarded && f.timestamp < s.firstTimestamp ==> r == Step(s, []))
  {
  }

  /** The capture time 0 doubles as "no round": an intra frame captured at
      time 0 fills the ballot but leaves the selector looking idle, so the
      next delta frame of the relayed layer is not buffered but delivered. */
  lemma ZeroTimeIntraLooksIdle(s: State, layer: nat, f: VideoFrame, g: VideoFrame)
    requires Valid(s) && s.iframes == [] && s.numLayers != 1
    requires f.intra && f.time == 0 && !g.intra
    ensures var q := OnMediaFrame(s, Media.Video, layer, f).state;
      && q.iframes == [Entry(layer, f)] && q.selectionTime == 0
      && OnMediaFrame(q, Media.Video, s.forwarded, g) == ForwardFrame(q, g)
  {
    assert Layers([Entry(layer, f)]) == {layer};
  }

  /** After the lone-intra path the ballot still holds its candidate while
      the round reads as closed, so the next intra frame from another layer
      captured after the waiting time does not open a round: it selects at
      once, against the stale candidate. */
  lemma StaleCandidateSelectsAtOnce(s: State, layer: nat, f: VideoFrame)
    requires Valid(s) && LoneIntra(s)
    requires f.intra && f.time > FrameWaitingTime
    requires layer !in Layers(Select(s).state.iframes)
    ensures var t := Select(s).state;
      && |t.iframes| == 1 && t.selectionTime == 0 && t.pendingFrames == []
      && OnMediaFrame(t, Media.Video, layer, f) == Select(Enqueue(t, layer, f))
  {
    SelectLoneIntra(s);
  }

  // ---------------------------------------------------------------------------
  // Control operations

  /** `Stop` delivers what the final selection delivers; a second `Stop`
      reaches no listener. */
  lemma StopTwiceDeliversNothingMore(s: State)
    requires Valid(s)
    ensures Stop(s).out == Select(s).out
    ensures forall e :: e in Stop(Stop(s).state).out ==> e.to == {}
  {
  }

  /** Registering then unregistering a listener that was not registered
      restores the state. */
  lemma AddThenRemoveListener(s: State, l: ListenerId)
    requires l !in s.listeners
    ensures RemoveMediaListener(AddMediaListener(s, l), l) == s
  {
  }

  // ---------------------------------------------------------------------------
  // Worked examples

  /** Two candidates: 640x480 in 50000 bytes on layer 1 and 1280x720 in 40000
      bytes on layer 2.  Length decides, so layer 1 wins despite its smaller
      picture. */
  lemma LongerCandidateWins()
    ensures var a := Entry(1, VideoFrame(true, 640, 480, 50000, 1000, 10, 90000));
      var b := Entry(2, VideoFrame(true, 1280, 720, 40000, 2000, 10, 90000));
      Winner([a, b]) == Some(a)
  {
  }

  /** Relaying layer 2 with last timestamp 5000, first 4000 and offset 100,
      when layer 2's candidate has timestamp 5300 and layer 1 wins: the gap is
      300, the offset becomes 100 + 1000 + 300 = 1400, the first timestamp
      becomes that of layer 1's intra frame, which comes out at 1400. */
  lemma SwitchOffsetExample()
    ensures var l1 := VideoFrame(true, 1280, 720, 60000, 7000, 500, 90000);
      var l2 := VideoFrame(true, 640, 480, 30000, 5300, 500, 90000);
      var s := State(9, 2, {1}, 2, [Entry(1, l1), Entry(2, l2)], [], 480, 4000, 100, 5000, 400);
      var r := Select(s);
      && r.state.offsetTimestamp == 1400 && r.state.firstTimestamp == 7000 && r.state.forwarded == 1
      && r.out == [Emission(9, l1.(timestamp := 1400), {1})]
  {
    var l1 := VideoFrame(true, 1280, 720, 60000, 7000, 500, 90000);
    var l2 := VideoFrame(true, 640, 480, 30000, 5300, 500, 90000);
    var s := State(9, 2, {1}, 2, [Entry(1, l1), Entry(2, l2)], [], 480, 4000, 100, 5000, 400);
    assert Layers(s.pendingFrames) == {};
    assert Area(l1) == 921600 && Area(l2) == 307200;
    assert FirstLongest(s.iframes, 2, 0);
    assert Find(s.iframes, 2) == Some(l2);
    SelectSwitch(s, 0);
  }

  /** A frame older than the first timestamp is dropped and the last
      forwarded timestamp stays. */
  lemma LateFrameDropped()
    ensures var s := State(9, 2, {1}, 2, [], [], 0, 4000, 100, 5000, 400);
      ForwardFrame(s, VideoFrame(false, 640, 480, 100, 3999, 500, 90000)) == Step(s, [])
  {
  }
}

=== FILE: wrappers.dfy ===
/** The optional value used throughout the model in place of a null pointer
    or a missing map entry. */
module Wrappers {

  datatype Option<+T> = None | Some(value: T)
}
